=== FILE: README.md ===
# SOS kernel model

This project models the kernel of SOS, the simulated operating system in
`SOS/src/sos/SOS.java`. The simulator's CPU traps into the kernel, and the
kernel then does four jobs:

- **Loader.** It loads programs into RAM with a bump allocator and creates
  processes.
- **Scheduler.** It picks the next ready process with a cyclic scan that
  starts at a random offset, and switches the register file.
- **Device arbiter.** It arbitrates open/close/read/write on registered
  devices. A call takes its arguments from the running process's stack and
  leaves a result code there: 0, -1, or -3 to -6. The kernel also defines
  -2 (`NOT_SHAREABLE`) but no operation pushes it.
- **Dispatcher.** It dispatches the system calls exit, output, getpid,
  open, close, read, write, exec, yield and core dump.

The project is organised in two layers:

- **`Transitions`** describes every kernel operation as a function from a
  `KState` value to the next state. `KState` holds:
  - the register file, the stack and RAM;
  - the program catalog, the device registry and the process table;
  - the running pid, the allocation watermark and the pid counter;
  - the calls issued to device drivers;
  - the windows handed out so far.

  The function is paired with an outcome: `Running`, or `Stopped(reason)`
  where the kernel would call `System.exit`. The contracts of these
  functions state what each operation does. The lemmas state what is
  preserved across operations.
- **`Kernel.Sos`** is the kernel as a class. It has fields for the tables,
  an `array<int>` register file, an `array<int>` RAM and a `seq<int>` stack.
  Its methods update these in place with the loops of the source: the RAM
  copy, the unblock loop in close, the register copies in save/restore, and
  the core dump's pops. Every operation the simulator calls (the
  constructor, registering devices and programs, the loader, the scheduler
  and the system calls) keeps the kernel invariant `Valid()`. The helpers
  `PushStack`, `PopStack`, `LoadWords` and `UnblockOpenWaiters` only run
  inside those operations, between valid states, and state just their own
  effect. Each method with a counterpart in
  `Transitions` is proved to compute that function. Output and getpid have
  no counterpart of their own: their contracts state the new state directly,
  and `Transitions.SystemCallStep` states the same effect.

The rest of the project is organised as follows:

- **`Pcbs`**: process control blocks and the process table.
- **`Devices`**: the device registry and its holder lists.
- **`Scheduling`**: the read-only searches (`getRandomProcess`,
  `selectBlockedProcess`) and the release of open waiters.
- **`Programs`**: the program catalog.
- **`Codes`**: the constants, such as system call numbers and result codes.

**Identity.**

- PCBs are values identified by their pid. The pid counter makes pids
  unique: `Transitions.PidsUnique`.
- Devices are identified by their registry index.
- A holder list holds pids.
- Before the first load, the running process is the kernel's placeholder
  PCB with pid 42. That PCB is never in the table.

**Three behaviours of the code are modelled as written:**

- **Open blocks but still adds.** Open marks a process blocked on a busy
  non-shareable device, still adds it to the holder list and still reports
  0. So a non-shareable device can have several holders.
- **Read continues after -6.** Read on a non-readable device pushes -6 and
  then carries on to read and push the value and 0.
- **Unused least count.** Exec computes the least call count and does not
  use it. Every program is a candidate.

**Two comments in the source promise more than the code does.**

- `block`'s comment (SOS.java:832-833) makes the caller responsible for
  calling `scheduleNewProcess` after blocking. `syscallOpen` blocks the
  running process and never does, so the blocked process goes on running
  until it yields, execs, exits or core dumps. The process also stays a holder of the device:
  - a close releases every open waiter but keeps each on the holder list
    (`Transitions.CloseReleasesHolders`);
  - if a released process opens the device again, open finds it among the
    holders and pushes -3 (`Transitions.OpenStep`).
- `syscallExec`'s comment (SOS.java:591-592) promises that each program is
  run an equal number of times. SOS.java never increments `callCount`, and
  it draws from every program, so the least count it computes has no
  effect.

**Assumed constants.** `CPU.java`, `RAM.java`, `Program.java` and
`Device.java` are not part of this model. They are replaced as follows:

- The register layout (9 registers, PC 5, SP 6, BASE 7, LIM 8) and the
  instruction size 4 are constants in `Codes`.
- A program is its exported words, its size, its default allocation size
  and its call count.
- A device is its three capability flags.

## Model

| member | source | states |
|---|---|---|
| Transitions.Initial | SOS/src/sos/SOS.java:121-127 | The kernel starts with no processes, devices or programs, no windows, an empty stack, the placeholder pid 42 running, watermark 0 and pid counter 1001. Every invariant holds, including that only open blocks. |
| Kernel.Sos.constructor | SOS/src/sos/SOS.java:121-127 | The constructed kernel's state is `Initial(ramSize)` and it is valid. |
| Kernel.Sos.RegisterDevice | SOS/src/sos/SOS.java:173-175 | Registering appends one entry with the given id and device and no holders, and changes nothing else. |
| Transitions.RegisterKeepsOnlyOpenBlocks | SOS/src/sos/SOS.java:173-175 | Registering a device keeps every blocked process a holder of the device it waits for. |
| Kernel.Sos.AddProgram | SOS/src/sos/SOS.java:281-283 | Adding a program appends it to the catalog and changes nothing else. |
| Pcbs.NewPcb | SOS/src/sos/SOS.java:785-787 | A new PCB carries the given pid, has no saved registers and is not blocked. |
| Pcbs.Pcb.Save | SOS/src/sos/SOS.java:804-810 | The snapshot equals the CPU's register file, copied register by register, and nothing else in the PCB changes. |
| Pcbs.Pcb.Restore | SOS/src/sos/SOS.java:821-827 | The register file afterwards equals the snapshot; it needs a snapshot to exist, since the source would dereference a missing array. |
| Pcbs.Pcb.IsBlocked | SOS/src/sos/SOS.java:872-874 | A PCB is blocked exactly when it is blocked for some device, operation and address. |
| Pcbs.Pcb.IsBlockedForDevice | SOS/src/sos/SOS.java:892-904 | A match needs the device and operation. For open the address is ignored. For any other operation the address must match as well. This is the opposite of what the comment at SOS.java:880-881 says. |
| Pcbs.Pcb.Block | SOS/src/sos/SOS.java:846-851 | The PCB becomes blocked for exactly the given device, operation and address; pid, snapshot and stack are kept. |
| Pcbs.Pcb.Unblock | SOS/src/sos/SOS.java:860-865 | The PCB is no longer blocked, for any device, operation or address; pid, snapshot and stack are kept. |
| Pcbs.FindPid | SOS/src/sos/SOS.java:211 | The PCB of a pid is found exactly when the table holds it, and in an ascending table at its one position. |
| Pcbs.RemovePid | SOS/src/sos/SOS.java:211 | Removal drops the running PCB and no other, keeps the table ascending, and does nothing when the PCB is absent. |
| Pcbs.RemovePidReady | SOS/src/sos/SOS.java:205-215 | After the running process is removed, every PCB left has a snapshot a later restore can use, and the pid is gone. |
| Pcbs.BlockPid | SOS/src/sos/SOS.java:467-470 | Only the running process's PCB changes, and it becomes blocked for the given device, operation and address. |
| Pcbs.SaveSnapshot | SOS/src/sos/SOS.java:259-260 | Saving the running process stores the registers and stack in its PCB only; the table is unchanged when it holds no such PCB. |
| Pcbs.SaveSnapshotReady | SOS/src/sos/SOS.java:259-264 | After a save, every PCB in the table has a full-width snapshot, so any of them can be restored. |
| Devices.DeviceInfo.ContainsProcess | SOS/src/sos/SOS.java:1001-1003 | A process holds the device exactly when removing it from the holder list (what close does) shortens the list by one. |
| Devices.DeviceInfo.Unused | SOS/src/sos/SOS.java:1006-1008 | The device is unused exactly when no process holds it. |
| Devices.DeviceInfo.AddProcess | SOS/src/sos/SOS.java:991-993 | The pid becomes a holder; the earlier holders stay; the list grows by one and stays free of repeats. |
| Devices.DeviceInfo.RemoveProcess | SOS/src/sos/SOS.java:996-998 | The holder list loses the first occurrence of the pid; the id and device are kept. |
| Devices.RemoveFirst | SOS/src/sos/SOS.java:996-998 | List removal takes out one occurrence when present, keeps every other value, and is the identity otherwise. |
| Devices.RemoveFirstDistinct | SOS/src/sos/SOS.java:996-998 | On a list without repeats, removal leaves exactly the other values, still without repeats. |
| Devices.AddThenRemove | SOS/src/sos/SOS.java:991-998 | Adding a non-holder and then removing it restores the holder list. |
| Devices.DeviceFound | SOS/src/sos/SOS.java:730-739 | The lookup returns the first entry with the id, or None exactly when no entry has it. |
| Scheduling.GetRandomProcess | SOS/src/sos/SOS.java:225-239 | The scan from the offset returns the first non-blocked PCB in cyclic order, and None exactly when every PCB is blocked. |
| Scheduling.VisitCovers | SOS/src/sos/SOS.java:231-236 | The cyclic scan from any offset visits every position of the table. |
| Scheduling.SelectBlockedProcess | SOS/src/sos/SOS.java:668-678 | Returns the first PCB blocked for the device and operation (the address only for operations other than open), and None exactly when there is none. |
| Scheduling.UnblockOneWaiter | SOS/src/sos/SOS.java:497-506 | Unblocking one open waiter lowers the number of waiters by one, so the unblock loop ends. |
| Scheduling.ReleaseOpenWaiters | SOS/src/sos/SOS.java:497-506 | After the release no PCB waits to open the device, every former waiter is ready, and every other PCB is unchanged. |
| Programs.AllocSize | SOS/src/sos/SOS.java:627-630 | The window size is the default allocation size when it is positive. Otherwise it is twice the program size as a 32-bit int: exactly twice the size when that fits, and negative when the size is 2^30 or more. |
| Programs.LeastCallCount | SOS/src/sos/SOS.java:605-611 | The result is the smallest call count in a non-empty catalog: no larger than any call count, and equal to one of them. |
| Transitions.WriteWords | SOS/src/sos/SOS.java:320-325 | The words land at consecutive addresses from the start address; every other RAM cell is unchanged. |
| Transitions.WindowsDisjoint | SOS/src/sos/SOS.java:315-328 | Windows handed out by the bump allocator never overlap, start at increasing bases and end at or below the watermark. |
| Transitions.LoadedWindowsDisjoint | SOS/src/sos/SOS.java:315-328 | In every reachable state the loaded windows are pairwise disjoint and inside RAM. |
| Transitions.PidsUnique | SOS/src/sos/SOS.java:329-333 | In every reachable state no two PCBs share a pid. |
| Kernel.Sos.SaveCurrent | SOS/src/sos/SOS.java:259-260 | Saving the running process copies the register file and stack into its PCB, computing `SaveRunning`. Nothing changes when the running PCB is not in the table. |
| Transitions.SaveRunning | SOS/src/sos/SOS.java:259-260 | Saving the running process keeps the invariant and leaves every PCB restorable. |
| Transitions.ScheduleStep | SOS/src/sos/SOS.java:247-267 | Stops with "no more processes" exactly on an empty table, and with "no ready process" exactly when all PCBs are blocked. Otherwise it saves the old process and makes the scan's choice current, with its registers and stack restored; nothing else changes. |
| Kernel.Sos.ScheduleNewProcess | SOS/src/sos/SOS.java:247-267 | Computes `ScheduleStep` on the kernel's state with the scan offset drawn from the given number. |
| Transitions.RemoveCurrentStep | SOS/src/sos/SOS.java:205-215 | The running process's PCB leaves the table and every other PCB stays. The run stops with "no more processes" exactly when the table is left empty. It stops with "no ready process" exactly when every PCB left is blocked. Otherwise a ready process becomes current with its registers and stack restored. |
| Kernel.Sos.RemoveCurrentProcess | SOS/src/sos/SOS.java:205-215 | Computes `RemoveCurrentStep` on the kernel's state. |
| Transitions.CreateProcessStep | SOS/src/sos/SOS.java:301-338 | Stops with "no RAM", changing nothing, exactly when watermark + size >= RAM size (on unbounded integers, see Findings). Otherwise the new window lies inside RAM; BASE, LIM, PC = 4 and SP are set, and word i is written at BASE+4+i with no other RAM cell changed. The watermark advances by the size, and a fresh PCB with the counter's pid is appended and made current. |
| Transitions.Install | SOS/src/sos/SOS.java:315-333 | Installing a loaded program keeps the kernel invariant (tiled windows, ascending pids below the counter, restorable snapshots). |
| Kernel.Sos.LoadWords | SOS/src/sos/SOS.java:320-325 | The copy loop leaves RAM equal to `WriteWords` of the old RAM. |
| Kernel.Sos.CreateProcess | SOS/src/sos/SOS.java:301-338 | Computes `CreateProcessStep` on the kernel's state. |
| Kernel.Sos.InstallNewProcess | SOS/src/sos/SOS.java:315-333 | Computes `Install` on the kernel's state. |
| Transitions.ExecStep | SOS/src/sos/SOS.java:596-638 | Stops on an empty catalog. Otherwise it loads the picked program with its window size and has the outcome of that load. On success the PC is moved back one instruction, so the CPU's increment lands on the first one; the catalog is unchanged. |
| Kernel.Sos.Exec | SOS/src/sos/SOS.java:596-638 | Computes `ExecStep` on the kernel's state, including the unused least-call-count pass and the candidate copy. |
| Kernel.Sos.Exit | SOS/src/sos/SOS.java:398-401 | Exit computes `RemoveCurrentStep`. |
| Kernel.Sos.Output | SOS/src/sos/SOS.java:408-410 | Output pops one value, changes nothing else and keeps the invariant. |
| Kernel.Sos.GetPid | SOS/src/sos/SOS.java:417-421 | The running pid is pushed, nothing else changes and the invariant is kept. |
| Transitions.CoreDumpStep | SOS/src/sos/SOS.java:428-443 | A core dump pops up to three values, then exits; the running pid is no longer in the table. |
| Kernel.Sos.CoreDump | SOS/src/sos/SOS.java:428-443 | The pop loop and the exit compute `CoreDumpStep`. |
| Transitions.OpenStep | SOS/src/sos/SOS.java:450-479 | An unknown id gives -1 and a holder gives -3, with nothing changed. Otherwise the pid is appended to the holders and 0 is pushed. If the device is non-shareable and already held, the process is also blocked on (device, open, 100). |
| Kernel.Sos.Open | SOS/src/sos/SOS.java:450-479 | Computes `OpenStep` on the kernel's state. |
| Transitions.CloseStep | SOS/src/sos/SOS.java:484-514 | An unknown id gives -1 and a non-holder gives -4, with nothing changed. Otherwise the pid leaves the holders, exactly the other holders stay, and every open waiter on the device is unblocked while every other PCB stays. Every PCB keeps its pid, saved registers and stack. No PCB then waits to open the device, and 0 is pushed. |
| Kernel.Sos.UnblockOpenWaiters | SOS/src/sos/SOS.java:497-506 | The select-and-unblock loop ends with the table equal to `ReleaseOpenWaiters` of the old one. |
| Kernel.Sos.Close | SOS/src/sos/SOS.java:484-514 | Computes `CloseStep` on the kernel's state. |
| Transitions.ReadStep | SOS/src/sos/SOS.java:519-549 | Pops the address and then the id. An unknown id pushes -1 and a non-holder -4, with no driver call. Otherwise one driver read is issued, and the stack gains -6 if the device is not readable, then the value read, then 0. |
| Kernel.Sos.Read | SOS/src/sos/SOS.java:519-549 | Computes `ReadStep` on the kernel's state and keeps the invariant. |
| Transitions.WriteStep | SOS/src/sos/SOS.java:554-584 | Pops data, address and id. An unknown id pushes -1, a non-holder -4, and a non-writeable device -5, with no driver call. Otherwise one driver write of the data at the address is issued and 0 is pushed. |
| Kernel.Sos.Write | SOS/src/sos/SOS.java:554-584 | Computes `WriteStep` on the kernel's state and keeps the invariant. |
| Kernel.Sos.Yield | SOS/src/sos/SOS.java:645-648 | Yield computes `ScheduleStep`. |
| Transitions.SystemCallStep | SOS/src/sos/SOS.java:685-721 | Dispatches on the popped number: exit, core dump, yield and exec give exactly the outcome of `RemoveCurrentStep`, `CoreDumpStep`, `ScheduleStep` and `ExecStep`, and open, close, read and write give `OpenStep`, `CloseStep`, `ReadStep` and `WriteStep` and keep running. An unknown number only pops, getpid pushes the pid, and output pops its argument. Only exit, core dump, exec and yield can stop the run. The catalog never changes, the pid counter rises by at most one, and the watermark and the window list only grow. |
| Kernel.Sos.SystemCall | SOS/src/sos/SOS.java:685-721 | Computes `SystemCallStep` on the kernel's state and keeps it valid. |
| Transitions.NoRoomAsWritten | SOS/src/sos/SOS.java:305 | The loader's out-of-RAM test as the kernel evaluates it, with the sum taken as a 32-bit int. |
| Transitions.NoRoomTestWraps | SOS/src/sos/SOS.java:305-328 | With watermark 1000, 10000 words of RAM and a window of 2147483000 words, the 32-bit test lets the load go ahead although the window ends beyond RAM. |
| Transitions.OpenThenClose | SOS/src/sos/SOS.java:450-514 | Opening a device the process does not hold and then closing it restores the registry, and the close reports 0. |
| Transitions.ScheduleKeepsOnlyOpenBlocks | SOS/src/sos/SOS.java:247-267 | Scheduling keeps every blocked process an open waiter that holds its device. |
| Transitions.RemoveCurrentKeepsOnlyOpenBlocks | SOS/src/sos/SOS.java:205-215 | Removing the running process keeps every blocked process an open waiter that holds its device. |
| Transitions.CreateProcessKeepsOnlyOpenBlocks | SOS/src/sos/SOS.java:301-338 | Loading a process keeps every blocked process an open waiter that holds its device. |
| Transitions.ExecKeepsOnlyOpenBlocks | SOS/src/sos/SOS.java:596-638 | Exec keeps every blocked process an open waiter that holds its device. |
| Transitions.OpenKeepsOnlyOpenBlocks | SOS/src/sos/SOS.java:450-479 | The process open blocks is added to that device's holders, so every blocked process still holds its device. |
| Transitions.CloseKeepsOnlyOpenBlocks | SOS/src/sos/SOS.java:484-514 | Close keeps every blocked process an open waiter that holds its device. |
| Transitions.SystemCallKeepsOnlyOpenBlocks | SOS/src/sos/SOS.java:685-721 | Across every system call, a blocked process is blocked only by open, at address 100, on a registered device it holds. |
| Transitions.CloseReleasesHolders | SOS/src/sos/SOS.java:467-506 | A close releases every other process waiting to open the device, yet each of them is still a holder, so its retried open would be refused with -3. |

## Left out

- **Interrupt handlers.** The illegal memory access, divide by zero and
  illegal instruction handlers only print and exit, so they are not
  modelled.
- **Console output.** The printed value of output, the register and stack
  printout of a core dump, debug printing, the process table printout and
  `toString` are not modelled. Output and core dump still pop what they pop.
- **CPU, RAM and program classes.** `CPU.java`, `RAM.java` and
  `Program.java` are not part of this model. The register layout and
  instruction size are assumed constants. Trap registration and `regDump`
  are not modelled.
- Kernel.Sos.CoreDump: the machine's `validMemory` test on the stack slot is
  replaced by "the stack is non-empty".
- **Stack underflow.** The CPU's behaviour on popping an empty stack is not
  modelled. Each system call requires its arguments on the stack.
- **The stack.** The running process's stack is a sequence, saved into the
  PCB at a switch. The source keeps it in the process's RAM window and
  switches it by restoring SP.
- **Load size.** A load requires the window to hold the four header words
  and the program's words. Catalog programs must satisfy this, so
  `AddProgram` requires it. The source's RAM behaviour on a write past the
  window is not known.
- **Devices.**
  - A device is identified by its registry index. The source compares
    device objects, which differs only when one device is registered twice.
  - The device's `setId` callback at registration is not modelled.
  - The keyboard driver is not modelled. The value a read returns is a
    parameter. Each read and write is recorded as a `DeviceCall` instead
    of calling a driver.
- **Placeholder PCB.** Saving the placeholder, or a PCB just removed from
  the table, is not observable, so the model leaves the table as it is.
- **Randomness.**
  - The scheduler's `Math.random` becomes the parameter `draw`, in
    [0, 2147483647).
  - Exec's `Random.nextInt` becomes the parameter `pick`, below the catalog
    size.
- **`compareTo`.** It is unused and not modelled.
- **`System.exit`.** It becomes a `Stopped` outcome. The model does not
  terminate the program.
- Transitions.CreateProcessStep: the out-of-RAM test, the limit register
  and the new watermark use unbounded integers. In the kernel they are
  32-bit ints, and a sum of 2^31 or more wraps below zero and passes the
  test. The wrapped load leaves LIM and the watermark negative and the new
  stack pointer beyond RAM; the program's words, if any, are still written
  inside RAM from BASE + 4 on. What the CPU and RAM do with those registers
  afterwards (stack pushes, the next load's writes at negative addresses,
  the CPU's limit checks) is not known, because `CPU.java` and `RAM.java`
  are not part of this model, so the wrap is recorded under Findings
  rather than modelled.
- Kernel.Sos.CreateProcess: inherits the unbounded out-of-RAM test of
  Transitions.CreateProcessStep.
- Transitions.ExecStep: inherits the unbounded out-of-RAM test of
  Transitions.CreateProcessStep. The window size itself is computed on
  32-bit ints (`Programs.AllocSize`).
- **Pid counter.** The counter is unbounded. In the kernel it would wrap
  after 2^31 - 1001 loads.
- **Call counts.** Exec does not increment a program's call count, because
  the code does not.
- Transitions.CloseReleasesHolders: only states what close does to waiters
  and holders. Whether a woken process actually retries its open depends on
  the program it runs, which is not modelled.

## Findings

| source | as written | input that shows it | evidently intended | confidence | as-written member | corrected member |
|---|---|---|---|---|---|---|
| SOS/src/sos/SOS.java:305 | `m_nextLoadPos + allocSize >= m_RAM.getSize()` is evaluated on 32-bit ints, so a large window wraps the sum below zero and passes the test | watermark 1000, RAM size 10000, a program with no words and default allocation size 2147483000 | stop with "NO RAM" whenever the window does not end below the RAM size | medium (not executed) | Transitions.NoRoomAsWritten, shown by Transitions.NoRoomTestWraps | Transitions.CreateProcessStep, whose ensures state that a load goes ahead exactly when watermark + size < RAM size, so the new window lies inside RAM |

=== FILE: codes.dfy ===
/** Constants shared by the SOS kernel and its simulated CPU, and the kernel's
    terminal outcomes (the places where the kernel ends the simulation). */
module Codes {

  // System-call numbers, popped from the stack by the trap handler.
  const SyscallExit := 0
  const SyscallOutput := 1
  const SyscallGetPid := 2
  const SyscallOpen := 3
  const SyscallClose := 4
  const SyscallRead := 5
  const SyscallWrite := 6
  const SyscallExec := 7
  const SyscallYield := 8
  const SyscallCoreDump := 9

  // Result codes pushed by the device operations.
  const Success := 0
  const DeviceNotFound := -1
  /** Defined by the kernel but never pushed by any operation. */
  const NotShareable := -2
  const AlreadyOpened := -3
  const NotOpened := -4
  const ReadOnly := -5
  const WriteOnly := -6

  /** The pid handed to the first loaded process. */
  const FirstPid := 1001
  /** The pid of the placeholder PCB that is "running" before any load. */
  const PlaceholderPid := 42
  /** The address recorded when a process blocks on an open. */
  const OpenWaitAddr := 100
  /** Words reserved at the start of every window; the first instruction
      is loaded right after them and the logical PC starts there. */
  const HeaderWords := 4
  /** Exclusive upper bound of the random draw that picks the scan offset. */
  const RandomRange := 2147483647

  // Register file layout of the CPU collaborator.
  const NumGenReg := 5
  const Pc := 5
  const Sp := 6
  const Base := 7
  const Lim := 8
  const NumReg := 9
  /** Width of one instruction in words. */
  const InstrSize := 4

  datatype Option<T> = None | Some(value: T)

  /** Why the kernel ended the simulation. */
  datatype StopReason =
    | NoMoreProcesses   // the process table became empty
    | NoReadyProcess    // every process in the table is blocked
    | OutOfRam          // a load did not fit below the RAM size
    | NoPrograms        // exec with an empty program catalog

  datatype Outcome = Running | Stopped(reason: StopReason)

  /** The value a Java `int` holds after an arithmetic result `x`: `x`
      reduced modulo 2^32 into [-2^31, 2^31). */
  function Int32(x: int): (r: int)
    ensures -0x8000_0000 <= r < 0x8000_0000
    ensures (r - x) % 0x1_0000_0000 == 0
    ensures -0x8000_0000 <= x < 0x8000_0000 ==> r == x
  {
    (x + 0x8000_0000) % 0x1_0000_0000 - 0x8000_0000
  }

  /** The value on top of a stack whose top is its last element. */
  function Top(s: seq<int>): int
    requires |s| > 0
  {
    s[|s| - 1]
  }

  /** The stack left after popping the top value. */
  function Below(s: seq<int>): seq<int>
    requires |s| > 0
  {
    s[..|s| - 1]
  }
}

=== FILE: devices.dfy ===
/** The device registry: one entry per registered device, binding the device
    to its id and listing the processes (by pid) that have it open. */
module Devices {
  import opened Codes

  /** What the kernel asks of a device: the capability flags. Reads and
      writes themselves are calls out of the kernel (see Kernel.DeviceCall). */
  datatype Device = Device(shareable: bool, readable: bool, writeable: bool)

  /** A registry entry: the id the device was registered under, the device,
      and the pids of the processes that have it open, in opening order. */
  datatype DeviceInfo = DeviceInfo(id: int, device: Device, holders: seq<int>)
  {
    /** Does the process currently have this device open? */
    predicate ContainsProcess(pid: int)
      ensures ContainsProcess(pid) <==> |RemoveFirst(holders, pid)| == |holders| - 1
    {
      pid in holders
    }

    /** Is the device opened by no process at all? */
    predicate Unused()
      ensures Unused() <==> forall pid :: !ContainsProcess(pid)
    {
      assert |holders| > 0 ==> ContainsProcess(holders[0]);
      |holders| == 0
    }

    /** Registers `pid` as having opened the device. */
    function AddProcess(pid: int): (r: DeviceInfo)
      ensures r.id == id && r.device == device
      ensures r.ContainsProcess(pid) && |r.holders| == |holders| + 1
      ensures forall q :: q in holders ==> r.ContainsProcess(q)
      ensures NoDup(holders) && pid !in holders ==> NoDup(r.holders)
    {
      this.(holders := holders + [pid])
    }

    /** Registers `pid` as having closed the device. */
    function RemoveProcess(pid: int): (r: DeviceInfo)
      ensures r.id == id && r.device == device
      ensures r.holders == RemoveFirst(holders, pid)
    {
      this.(holders := RemoveFirst(holders, pid))
    }
  }

  /** No value occurs twice. */
  predicate NoDup(s: seq<int>) {
    forall i, j :: 0 <= i < j < |s| ==> s[i] != s[j]
  }

  /** `s` without its first occurrence of `x` (the list's remove). */
  function RemoveFirst(s: seq<int>, x: int): (r: seq<int>)
    ensures x !in s ==> r == s
    ensures x in s ==> |r| == |s| - 1
    ensures forall y :: y in r ==> y in s
    ensures forall y :: y in s && y != x ==> y in r
  {
    if |s| == 0 then []
    else
      assert s == [s[0]] + s[1..];
      if s[0] == x then s[1..] else [s[0]] + RemoveFirst(s[1..], x)
  }

  /** Removing from a list without repeats leaves exactly the other values,
      still without repeats. */
  lemma {:induction false} RemoveFirstDistinct(s: seq<int>, x: int)
    requires NoDup(s)
    ensures NoDup(RemoveFirst(s, x))
    ensures forall y :: y in RemoveFirst(s, x) <==> y in s && y != x
  {
    if s != [] {
      assert NoDup(s[1..]) by {
        forall i, j | 0 <= i < j < |s[1..]| ensures s[1..][i] != s[1..][j] {
          assert s[1..][i] == s[i + 1] && s[1..][j] == s[j + 1];
        }
      }
      assert s[0] !in s[1..] by {
        forall k | 0 <= k < |s[1..]| ensures s[1..][k] != s[0] {
          assert s[1..][k] == s[k + 1];
        }
      }
      RemoveFirstDistinct(s[1..], x);
      if s[0] != x {
        var t := RemoveFirst(s[1..], x);
        var r := [s[0]] + t;
        assert RemoveFirst(s, x) == r;
        forall i, j | 0 <= i < j < |r| ensures r[i] != r[j] {
          assert r[j] == t[j - 1];
          if i == 0 {
            assert r[j] in t;
          } else {
            assert r[i] == t[i - 1];
          }
        }
        assert s == [s[0]] + s[1..];
      }
    }
  }

  /** Opening and then closing leaves the holders as they were. */
  lemma {:induction false} AddThenRemove(s: seq<int>, x: int)
    requires x !in s
    ensures RemoveFirst(s + [x], x) == s
  {
    if s != [] {
      assert (s + [x])[1..] == s[1..] + [x];
      AddThenRemove(s[1..], x);
    }
  }

  /** The position of the first entry at or after `from` whose id is `id`. */
  function DeviceFoundFrom(devices: seq<DeviceInfo>, id: int, from: nat): (r: Option<nat>)
    requires from <= |devices|
    ensures r.Some? ==> from <= r.value < |devices| && devices[r.value].id == id
    ensures r.Some? ==> forall i :: from <= i < r.value ==> devices[i].id != id
    ensures r.None? <==> forall i :: from <= i < |devices| ==> devices[i].id != id
    decreases |devices| - from
  {
    if from == |devices| then None
    else if devices[from].id == id then Some(from)
    else DeviceFoundFrom(devices, id, from + 1)
  }

  /** Registry lookup: the first entry registered under `id`, if any. */
  function DeviceFound(devices: seq<DeviceInfo>, id: int): (r: Option<nat>)
    ensures r.Some? ==> r.value < |devices| && devices[r.value].id == id
    ensures r.Some? ==> forall i :: 0 <= i < r.value ==> devices[i].id != id
    ensures r.None? <==> forall i :: 0 <= i < |devices| ==> devices[i].id != id
  {
    DeviceFoundFrom(devices, id, 0)
  }

  /** Every holder list is free of repeats. */
  ghost predicate HoldersDistinct(devices: seq<DeviceInfo>) {
    forall d :: 0 <= d < |devices| ==> NoDup(devices[d].holders)
  }
}

=== FILE: kernel.dfy ===
/** The SOS kernel as the object the simulator drives: the process table,
    the device registry, the running process, the bump allocator and the pid
    counter, together with the parts of the simulated machine the kernel
    works on (the CPU's register file and stack, and RAM). Each operation
    with a counterpart in `Transitions` (`Open` and `OpenStep`, `Exec` and
    `ExecStep`, ...) is proved to compute it; output and getpid state their
    new state directly, and registering a device or a program states its
    one change. Where the kernel would end the simulation an operation
    returns a `Stopped` outcome instead. */
module Kernel {
  import opened Codes
  import opened Pcbs
  import opened Devices
  import opened Scheduling
  import opened Programs
  import opened Transitions

  class Sos {
    /** The CPU's register file. */
    const regs: array<int>
    /** The running process's stack; its top is the last element. */
    var stack: seq<int>
    const ram: array<int>
    var programs: seq<Program>
    var devices: seq<DeviceInfo>
    var processes: seq<Pcb>
    /** The pid of the running process. */
    var currPid: int
    var nextLoadPos: int
    var nextProcessId: int
    /** Every read and write the kernel has issued to a device driver. */
    var deviceCalls: seq<DeviceCall>
    /** The windows handed out so far, in loading order. */
    ghost var windows: seq<Window>

    /** The kernel's state as a value. */
    ghost function State(): KState
      reads this, regs, ram
    {
      KState(regs[..], stack, ram[..], programs, devices, processes, currPid,
             nextLoadPos, nextProcessId, deviceCalls, windows)
    }

    ghost predicate Valid()
      reads this, regs, ram
    {
      regs != ram && Inv(State())
    }

    /** A kernel over a zeroed machine with `ramSize` words of RAM, running
        the placeholder process. */
    constructor (ramSize: nat)
      ensures Valid() && fresh(regs) && fresh(ram)
      ensures State() == Initial(ramSize)
    {
      regs := new int[NumReg](_ => 0);
      ram := new int[ramSize](_ => 0);
      stack := [];
      programs := [];
      devices := [];
      processes := [];
      currPid := PlaceholderPid;
      nextLoadPos := 0;
      nextProcessId := FirstPid;
      deviceCalls := [];
      windows := [];
      new;
      assert regs[..] == Initial(ramSize).regs;
      assert ram[..] == Initial(ramSize).ram;
    }

    /** Adds a device to the registry under `id`, opened by nobody. */
    method RegisterDevice(dev: Device, id: int)
      requires Valid()
      modifies this`devices
      ensures State() == old(State()).(devices := old(devices) + [DeviceInfo(id, dev, [])])
      ensures Valid()
    {
      devices := devices + [DeviceInfo(id, dev, [])];
    }

    /** Adds a program to the catalog exec chooses from. */
    method AddProgram(prog: Program)
      requires Valid() && FitsWindow(prog)
      modifies this`programs
      ensures State() == old(State()).(programs := old(programs) + [prog])
      ensures Valid()
    {
      programs := programs + [prog];
    }

    method PushStack(x: int)
      modifies this`stack
      ensures stack == old(stack) + [x]
    {
      stack := stack + [x];
    }

    method PopStack() returns (x: int)
      requires |stack| > 0
      modifies this`stack
      ensures x == Top(old(stack)) && stack == Below(old(stack))
    {
      x := Top(stack);
      stack := Below(stack);
    }

    // ------------------------------------------------------------------
    // Context switch

    /** Saves the running process's registers and stack into its PCB. When
        the running PCB is not in the table (the placeholder, or a process
        just removed) the table is left as it is. */
    method SaveCurrent()
      requires Valid()
      modifies this`processes
      ensures State() == SaveRunning(old(State()))
      ensures Valid()
    {
      match FindPid(processes, currPid)
      case None =>
      case Some(k) =>
        var saved := processes[k].Save(regs);
        processes := processes[k := saved.(stackArea := stack)];
    }

    /** Picks the next process with the random number `draw`, saves the
        running one and restores the chosen one. */
    method ScheduleNewProcess(draw: nat) returns (outcome: Outcome)
      requires Valid() && draw < RandomRange
      modifies this`processes, this`currPid, this`stack, regs
      ensures Step(State(), outcome) == ScheduleStep(old(State()), draw)
      ensures Valid()
    {
      if |processes| == 0 {
        return Stopped(NoMoreProcesses);
      }
      var offset := draw % |processes|;
      var newProcess := GetRandomProcess(processes, offset);
      if newProcess.None? {
        return Stopped(NoReadyProcess);
      }
      var k := newProcess.value;
      SaveCurrent();
      currPid := processes[k].pid;
      processes[k].Restore(regs);
      stack := processes[k].stackArea;
      outcome := Running;
    }

    /** Removes the running process from the table and schedules another. */
    method RemoveCurrentProcess(draw: nat) returns (outcome: Outcome)
      requires Valid() && draw < RandomRange
      modifies this`processes, this`currPid, this`stack, regs
      ensures Step(State(), outcome) == RemoveCurrentStep(old(State()), draw)
      ensures Valid()
    {
      RemovePidReady(processes, currPid, nextProcessId);
      processes := RemovePid(processes, currPid);
      outcome := ScheduleNewProcess(draw);
    }

    // ------------------------------------------------------------------
    // Loader

    /** Writes `words` into RAM from address `at` on, one word at a time. */
    method LoadWords(at: int, words: seq<int>)
      requires 0 <= at && at + |words| <= ram.Length
      modifies ram
      ensures ram[..] == WriteWords(old(ram[..]), at, words)
    {
      for progAddr := 0 to |words|
        invariant ram[..] == WriteWords(old(ram[..]), at, words[..progAddr])
      {
        ram[at + progAddr] := words[progAddr];
        assert words[..progAddr + 1] == words[..progAddr] + [words[progAddr]];
      }
      assert words[..|words|] == words;
    }

    /** Loads `prog` into the next `allocSize` words of RAM, gives it a fresh
        PCB and makes it the running process; the run stops when the window
        would reach the end of RAM. */
    method CreateProcess(prog: Program, allocSize: int) returns (outcome: Outcome)
      requires Valid() && HeaderWords + |prog.words| <= allocSize
      modifies this`processes, this`currPid, this`stack, this`nextLoadPos, this`nextProcessId, this`windows
      modifies regs, ram
      ensures Step(State(), outcome) == CreateProcessStep(old(State()), prog, allocSize)
      ensures Valid()
    {
      if nextLoadPos + allocSize >= ram.Length {
        return Stopped(OutOfRam);
      }
      SaveCurrent();
      InstallNewProcess(prog, allocSize);
      outcome := Running;
    }

    /** Points the registers at the next window, copies the program in after
        the header words and makes a fresh PCB the running process. */
    method InstallNewProcess(prog: Program, allocSize: int)
      requires Valid() && forall running :: SnapshotsReady(processes, running)
      requires HeaderWords + |prog.words| <= allocSize && nextLoadPos + allocSize < ram.Length
      modifies this`processes, this`currPid, this`stack, this`nextLoadPos, this`nextProcessId, this`windows
      modifies regs, ram
      ensures State() == Install(old(State()), prog, allocSize)
      ensures Valid()
    {
      var base := nextLoadPos;
      regs[Base] := base;
      regs[Lim] := base + allocSize;
      regs[Pc] := HeaderWords;
      regs[Sp] := allocSize;
      // SP at the top of the new window: the new process's stack is empty.
      stack := [];
      LoadWords(base + HeaderWords, prog.words);
      windows := windows + [Window(base, base + allocSize)];
      nextLoadPos := base + allocSize;
      var newProcess := NewPcb(nextProcessId);
      nextProcessId := nextProcessId + 1;
      processes := processes + [newProcess];
      currPid := newProcess.pid;
    }

    // ------------------------------------------------------------------
    // System calls. Each is entered with the call number already popped.

    method Exit(draw: nat) returns (outcome: Outcome)
      requires Valid() && draw < RandomRange
      modifies this`processes, this`currPid, this`stack, regs
      ensures Step(State(), outcome) == RemoveCurrentStep(old(State()), draw)
      ensures Valid()
    {
      outcome := RemoveCurrentProcess(draw);
    }

    /** Pops the value to output; the console is not modelled. */
    method Output()
      requires Valid() && |stack| > 0
      modifies this`stack
      ensures State() == old(State()).(stack := Below(old(stack)))
      ensures Valid()
    {
      var _ := PopStack();
    }

    method GetPid()
      requires Valid()
      modifies this`stack
      ensures State() == old(State()).(stack := old(stack) + [currPid])
      ensures Valid()
    {
      PushStack(currPid);
    }

    /** Pops up to three stack values (the dump itself is console output),
        then exits. */
    method CoreDump(draw: nat) returns (outcome: Outcome)
      requires Valid() && draw < RandomRange
      modifies this`processes, this`currPid, this`stack, regs
      ensures Step(State(), outcome) == CoreDumpStep(old(State()), draw)
      ensures Valid()
    {
      for i := 0 to 3
        modifies this`stack
        invariant stack == old(stack)[..|old(stack)| - (if i < |old(stack)| then i else |old(stack)|)]
      {
        if |stack| > 0 {
          var _ := PopStack();
        }
      }
      assert State() == old(State()).(stack := DumpedStack(old(stack)));
      outcome := Exit(draw);
    }

    method Open()
      requires Valid() && |stack| > 0
      modifies this`stack, this`devices, this`processes
      ensures State() == OpenStep(old(State()))
      ensures Valid()
    {
      var deviceNumber := PopStack();
      var found := DeviceFound(devices, deviceNumber);
      if found.None? {
        PushStack(DeviceNotFound);
        return;
      }
      var d := found.value;
      var info := devices[d];
      if info.ContainsProcess(currPid) {
        PushStack(AlreadyOpened);
        return;
      }
      var usedByOther := !info.Unused();
      var notShareable := !info.device.shareable;
      if notShareable && usedByOther {
        processes := BlockPid(processes, currPid, d, SyscallOpen, OpenWaitAddr);
      }
      devices := devices[d := info.AddProcess(currPid)];
      PushStack(Success);
    }

    /** Unblocks, one at a time and in table order, every process waiting to
        open device `d`. */
    method UnblockOpenWaiters(d: nat)
      modifies this`processes
      ensures processes == ReleaseOpenWaiters(old(processes), d)
    {
      var before := processes;
      while true
        invariant |processes| == |before|
        invariant forall i :: 0 <= i < |before| ==>
          processes[i] == before[i] || (WaitsToOpen(before[i], d) && processes[i] == before[i].Unblock())
        decreases CountOpenWaiters(processes, d)
      {
        var toUnblock := SelectBlockedProcess(processes, d, SyscallOpen, OpenWaitAddr);
        if toUnblock.None? {
          break;
        }
        var k := toUnblock.value;
        UnblockOneWaiter(processes, d, k);
        processes := processes[k := processes[k].Unblock()];
      }
      assert processes == ReleaseOpenWaiters(before, d);
    }

    method Close()
      requires Valid() && |stack| > 0
      modifies this`stack, this`devices, this`processes
      ensures State() == CloseStep(old(State()))
      ensures Valid()
    {
      var deviceNumber := PopStack();
      var found := DeviceFound(devices, deviceNumber);
      if found.None? {
        PushStack(DeviceNotFound);
        return;
      }
      var d := found.value;
      var info := devices[d];
      if !info.ContainsProcess(currPid) {
        PushStack(NotOpened);
        return;
      }
      devices := devices[d := info.RemoveProcess(currPid)];
      UnblockOpenWaiters(d);
      PushStack(Success);
    }

    /** `readValue` is what the device driver returns for the read. */
    method Read(readValue: int)
      requires Valid() && |stack| >= 2
      modifies this`stack, this`deviceCalls
      ensures State() == ReadStep(old(State()), readValue)
      ensures Valid()
    {
      var address := PopStack();
      var deviceNumber := PopStack();
      assert stack == old(stack)[..|old(stack)| - 2];
      var found := DeviceFound(devices, deviceNumber);
      if found.None? {
        PushStack(DeviceNotFound);
        return;
      }
      var d := found.value;
      var info := devices[d];
      if !info.ContainsProcess(currPid) {
        PushStack(NotOpened);
        return;
      }
      if !info.device.readable {
        PushStack(WriteOnly);
      }
      deviceCalls := deviceCalls + [DeviceRead(d, address)];
      PushStack(readValue);
      PushStack(Success);
    }

    method Write()
      requires Valid() && |stack| >= 3
      modifies this`stack, this`deviceCalls
      ensures State() == WriteStep(old(State()))
      ensures Valid()
    {
      var data := PopStack();
      var address := PopStack();
      var deviceNumber := PopStack();
      assert stack == old(stack)[..|old(stack)| - 3];
      var found := DeviceFound(devices, deviceNumber);
      if found.None? {
        PushStack(DeviceNotFound);
        return;
      }
      var d := found.value;
      var info := devices[d];
      if !info.ContainsProcess(currPid) {
        PushStack(NotOpened);
        return;
      }
      if !info.device.writeable {
        PushStack(ReadOnly);
        return;
      }
      deviceCalls := deviceCalls + [DeviceWrite(d, address, data)];
      PushStack(Success);
    }

    /** Creates a process from a program of the catalog; `pick` stands for
        the random choice among the candidates. */
    method Exec(pick: nat) returns (outcome: Outcome)
      requires Valid() && (|programs| > 0 ==> pick < |programs|)
      modifies this`processes, this`currPid, this`stack, this`nextLoadPos, this`nextProcessId, this`windows
      modifies regs, ram
      ensures Step(State(), outcome) == ExecStep(old(State()), pick)
      ensures Valid()
    {
      if |programs| == 0 {
        return Stopped(NoPrograms);
      }
      // Computed as in the kernel, and then not used by the choice.
      var leastCallCount := LeastCallCount(programs);
      var cands: seq<Program> := [];
      for i := 0 to |programs|
        invariant cands == programs[..i]
      {
        cands := cands + [programs[i]];
      }
      var prog := cands[pick];
      var allocSize := prog.defaultAllocSize;
      if allocSize <= 0 {
        allocSize := Int32(prog.size * 2);
      }
      outcome := CreateProcess(prog, allocSize);
      if outcome.Running? {
        regs[Pc] := regs[Pc] - InstrSize;
      }
    }

    method Yield(draw: nat) returns (outcome: Outcome)
      requires Valid() && draw < RandomRange
      modifies this`processes, this`currPid, this`stack, regs
      ensures Step(State(), outcome) == ScheduleStep(old(State()), draw)
      ensures Valid()
    {
      outcome := ScheduleNewProcess(draw);
    }

    /** The trap handler: pops the call number and runs that call; an unknown
        number does nothing more. */
    method SystemCall(draw: nat, pick: nat, readValue: int) returns (outcome: Outcome)
      requires Valid() && |stack| > 0 && ArgCount(Top(stack)) < |stack|
      requires draw < RandomRange && (|programs| > 0 ==> pick < |programs|)
      modifies this`processes, this`currPid, this`stack, this`nextLoadPos, this`nextProcessId, this`windows
      modifies this`devices, this`deviceCalls, regs, ram
      ensures Step(State(), outcome) == SystemCallStep(old(State()), draw, pick, readValue)
      ensures Valid()
    {
      var call := PopStack();
      outcome := Running;
      if call == SyscallExit {
        outcome := Exit(draw);
      } else if call == SyscallOutput {
        Output();
      } else if call == SyscallGetPid {
        GetPid();
      } else if call == SyscallCoreDump {
        outcome := CoreDump(draw);
      } else if call == SyscallOpen {
        Open();
      } else if call == SyscallClose {
        Close();
      } else if call == SyscallRead {
        Read(readValue);
      } else if call == SyscallWrite {
        Write();
      } else if call == SyscallExec {
        outcome := Exec(pick);
      } else if call == SyscallYield {
        outcome := Yield(draw);
      }
    }
  }
}

=== FILE: pcbs.dfy ===
/** Process control blocks and the process table as a sequence of them.
    A PCB is identified by its pid: the kernel hands out pids from a counter,
    so no two PCBs share one. */
module Pcbs {
  import opened Codes

  /** A process control block. `registers` is the register snapshot taken the
      last time the process was switched out (None until then); `stackArea`
      is its stack at that moment, which in the simulated machine stays in the
      process's memory window while it is switched out. A process is blocked
      when `blockedDevice` names a device (a registry index); `blockedOp` and
      `blockedAddr` are -1 when it is not. */
  datatype Pcb = Pcb(
    pid: int,
    registers: Option<seq<int>>,
    stackArea: seq<int>,
    blockedDevice: Option<nat>,
    blockedOp: int,
    blockedAddr: int)
  {
    /** Blocked waiting for `op` on device `dev`; the address only matters
        for operations other than open. */
    predicate IsBlockedForDevice(dev: nat, op: int, addr: int)
      ensures IsBlockedForDevice(dev, op, addr) ==> blockedDevice == Some(dev) && blockedOp == op
      ensures op == SyscallOpen ==>
        (IsBlockedForDevice(dev, op, addr) <==> blockedDevice == Some(dev) && blockedOp == SyscallOpen)
      ensures op != SyscallOpen ==>
        (IsBlockedForDevice(dev, op, addr) <==> blockedDevice == Some(dev) && blockedOp == op && addr == blockedAddr)
    {
      blockedDevice == Some(dev) && blockedOp == op &&
      (op == SyscallOpen || addr == blockedAddr)
    }

    /** Blocked on some device: exactly when the PCB is blocked for some
        device, operation and address. */
    predicate IsBlocked()
      ensures IsBlocked() <==> exists dev: nat, op, addr :: IsBlockedForDevice(dev, op, addr)
    {
      assert blockedDevice.Some? ==> IsBlockedForDevice(blockedDevice.value, blockedOp, blockedAddr);
      blockedDevice.Some?
    }

    /** The same process, now waiting for `op` on `dev`. */
    function Block(dev: nat, op: int, addr: int): (p: Pcb)
      ensures p.IsBlocked() && p.IsBlockedForDevice(dev, op, addr)
      ensures p.pid == pid && p.registers == registers && p.stackArea == stackArea
    {
      this.(blockedDevice := Some(dev), blockedOp := op, blockedAddr := addr)
    }

    /** The same process, ready again. */
    function Unblock(): (p: Pcb)
      ensures !p.IsBlocked()
      ensures forall dev, op, addr :: !p.IsBlockedForDevice(dev, op, addr)
      ensures p.pid == pid && p.registers == registers && p.stackArea == stackArea
    {
      this.(blockedDevice := None, blockedOp := -1, blockedAddr := -1)
    }

    /** Copies the CPU's register file, one register at a time, into a fresh
        snapshot and returns this PCB holding it. */
    method Save(cpuRegs: array<int>) returns (p: Pcb)
      requires cpuRegs.Length == NumReg
      ensures p.registers == Some(cpuRegs[..])
      ensures p.pid == pid && p.stackArea == stackArea && p.blockedDevice == blockedDevice
      ensures p.blockedOp == blockedOp && p.blockedAddr == blockedAddr
    {
      var copy := new int[NumReg];
      for i := 0 to NumReg
        invariant forall j :: 0 <= j < i ==> copy[j] == cpuRegs[j]
      {
        copy[i] := cpuRegs[i];
      }
      assert copy[..] == cpuRegs[..];
      p := this.(registers := Some(copy[..]));
    }

    /** Copies the snapshot back into the CPU's register file. The snapshot
        must exist: restoring a PCB that was never saved would dereference a
        missing register array. */
    method Restore(cpuRegs: array<int>)
      requires registers.Some? && |registers.value| == NumReg
      requires cpuRegs.Length == NumReg
      modifies cpuRegs
      ensures cpuRegs[..] == registers.value
    {
      var saved := registers.value;
      for i := 0 to NumReg
        invariant forall j :: 0 <= j < i ==> cpuRegs[j] == saved[j]
      {
        cpuRegs[i] := saved[i];
      }
    }
  }

  /** A fresh PCB: never saved, not blocked. */
  function NewPcb(pid: int): (p: Pcb)
    ensures p.pid == pid && p.registers.None? && !p.IsBlocked()
  {
    Pcb(pid, None, [], None, -1, -1)
  }

  /** Pids strictly increase along the table. */
  ghost predicate PidsAscending(ps: seq<Pcb>) {
    forall i, j :: 0 <= i < j < |ps| ==> ps[i].pid < ps[j].pid
  }

  /** Two tables hold the same pids in the same order. */
  ghost predicate SamePids(ps: seq<Pcb>, qs: seq<Pcb>) {
    |ps| == |qs| && forall i :: 0 <= i < |ps| ==> ps[i].pid == qs[i].pid
  }

  /** Every snapshot in the table has the register file's width, and every
      PCB other than the running one has a snapshot to be restored from. */
  ghost predicate SnapshotsReady(ps: seq<Pcb>, running: int) {
    forall i :: 0 <= i < |ps| ==>
      (ps[i].pid != running ==> ps[i].registers.Some?) &&
      (ps[i].registers.Some? ==> |ps[i].registers.value| == NumReg)
  }

  /** The first position at or after `from` that holds `pid`. */
  function FindPidFrom(ps: seq<Pcb>, pid: int, from: nat): (r: Option<nat>)
    requires from <= |ps|
    ensures r.Some? ==> from <= r.value < |ps| && ps[r.value].pid == pid
    ensures r.Some? ==> forall i :: from <= i < r.value ==> ps[i].pid != pid
    ensures r.None? ==> forall i :: from <= i < |ps| ==> ps[i].pid != pid
    decreases |ps| - from
  {
    if from == |ps| then None
    else if ps[from].pid == pid then Some(from)
    else FindPidFrom(ps, pid, from + 1)
  }

  /** The position of the PCB with `pid`, which is how the table finds a
      PCB by identity. */
  function FindPid(ps: seq<Pcb>, pid: int): (r: Option<nat>)
    ensures r.Some? ==> r.value < |ps| && ps[r.value].pid == pid
    ensures r.None? <==> forall i :: 0 <= i < |ps| ==> ps[i].pid != pid
    ensures PidsAscending(ps) ==> forall i :: 0 <= i < |ps| && ps[i].pid == pid ==> r == Some(i)
  {
    FindPidFrom(ps, pid, 0)
  }

  /** The table without the PCB of `pid` (first occurrence; unchanged when
      there is none). */
  function RemovePid(ps: seq<Pcb>, pid: int): (r: seq<Pcb>)
    ensures FindPid(ps, pid).None? ==> r == ps
    ensures FindPid(ps, pid).Some? ==> |r| == |ps| - 1
    ensures forall q :: q in r ==> q in ps
    ensures PidsAscending(ps) ==> PidsAscending(r)
    ensures PidsAscending(ps) ==> forall i :: 0 <= i < |r| ==> r[i].pid != pid
    ensures forall i :: 0 <= i < |ps| && ps[i].pid != pid ==> ps[i] in r
  {
    match FindPid(ps, pid)
    case None => ps
    case Some(k) => ps[..k] + ps[k + 1..]
  }

  /** The table with the PCB of `pid` blocked for (`dev`, `op`, `addr`);
      unchanged when the table has no such PCB. */
  function BlockPid(ps: seq<Pcb>, pid: int, dev: nat, op: int, addr: int): (r: seq<Pcb>)
    ensures SamePids(r, ps)
    ensures forall i :: 0 <= i < |ps| ==>
      r[i].registers == ps[i].registers && r[i].stackArea == ps[i].stackArea
    ensures forall i :: 0 <= i < |ps| ==>
      if Some(i) == FindPid(ps, pid) then r[i].IsBlockedForDevice(dev, op, addr) else r[i] == ps[i]
  {
    match FindPid(ps, pid)
    case None => ps
    case Some(k) => ps[k := ps[k].Block(dev, op, addr)]
  }

  /** The table after the running process `pid` has been switched out: its
      PCB (if the table has it) holds the register file `regs` and the stack
      `stk`; nothing else changes. */
  function SaveSnapshot(ps: seq<Pcb>, pid: int, regs: seq<int>, stk: seq<int>): (r: seq<Pcb>)
    ensures FindPid(ps, pid).None? ==> r == ps
    ensures SamePids(r, ps)
    ensures forall i :: 0 <= i < |ps| ==>
      if ps[i].pid == pid && Some(i) == FindPid(ps, pid)
      then r[i].registers == Some(regs) && r[i].stackArea == stk &&
           r[i].blockedDevice == ps[i].blockedDevice &&
           r[i].blockedOp == ps[i].blockedOp && r[i].blockedAddr == ps[i].blockedAddr
      else r[i] == ps[i]
  {
    match FindPid(ps, pid)
    case None => ps
    case Some(k) => ps[k := ps[k].(registers := Some(regs), stackArea := stk)]
  }

  /** Saving the running process readies every snapshot of an ascending table. */
  lemma SaveSnapshotReady(ps: seq<Pcb>, pid: int, regs: seq<int>, stk: seq<int>)
    requires PidsAscending(ps) && SnapshotsReady(ps, pid) && |regs| == NumReg
    ensures PidsAscending(SaveSnapshot(ps, pid, regs, stk))
    ensures forall running :: SnapshotsReady(SaveSnapshot(ps, pid, regs, stk), running)
  {
    var r := SaveSnapshot(ps, pid, regs, stk);
    forall i | 0 <= i < |r|
      ensures r[i].registers.Some? && |r[i].registers.value| == NumReg
    {
      if ps[i].pid == pid {
        assert FindPid(ps, pid).Some?;
        assert FindPid(ps, pid).value == i;
      }
    }
  }

  /** Removing the running process from a well-formed table keeps it
      well-formed, and every PCB left in it has a snapshot. */
  lemma RemovePidReady(ps: seq<Pcb>, pid: int, nextPid: int)
    requires PidsAscending(ps) && SnapshotsReady(ps, pid)
    requires forall i :: 0 <= i < |ps| ==> FirstPid <= ps[i].pid < nextPid
    ensures FindPid(RemovePid(ps, pid), pid).None?
    ensures forall i :: 0 <= i < |RemovePid(ps, pid)| ==> FirstPid <= RemovePid(ps, pid)[i].pid < nextPid
    ensures forall running :: SnapshotsReady(RemovePid(ps, pid), running)
  {
    var r := RemovePid(ps, pid);
    forall i | 0 <= i < |r|
      ensures FirstPid <= r[i].pid < nextPid && r[i].pid != pid
      ensures r[i].registers.Some? && |r[i].registers.value| == NumReg
    {
      assert r[i] in ps;
      var j :| 0 <= j < |ps| && ps[j] == r[i];
    }
  }
}

=== FILE: programs.dfy ===
/** The program catalog that exec chooses from. */
module Programs {
  import opened Codes

  /** A registered program: its exported instruction words, its size, its
      preferred allocation size (unspecified when not positive) and its
      invocation counter. */
  datatype Program = Program(words: seq<int>, size: int, defaultAllocSize: int, callCount: int)

  /** The window size exec loads a program with: the preferred size when it
      is positive, otherwise twice the program's size, computed on 32-bit
      ints as the kernel does. */
  function AllocSize(p: Program): (r: int)
    ensures p.defaultAllocSize > 0 ==> r == p.defaultAllocSize
    ensures p.defaultAllocSize <= 0 && -0x4000_0000 <= p.size < 0x4000_0000 ==> r == 2 * p.size
    ensures p.defaultAllocSize <= 0 ==>
      -0x8000_0000 <= r < 0x8000_0000 && (r - 2 * p.size) % 0x1_0000_0000 == 0
    ensures p.defaultAllocSize <= 0 && 0x4000_0000 <= p.size < 0x8000_0000 ==> r < 0
  {
    if p.defaultAllocSize <= 0 then Int32(p.size * 2) else p.defaultAllocSize
  }

  /** The program's words fit in its window after the header words. */
  predicate FitsWindow(p: Program) {
    HeaderWords + |p.words| <= AllocSize(p)
  }

  /** The smallest invocation counter in the catalog, found by one pass that
      starts from the first program's counter. */
  method LeastCallCount(programs: seq<Program>) returns (least: int)
    requires |programs| > 0
    ensures forall i :: 0 <= i < |programs| ==> least <= programs[i].callCount
    ensures exists i :: 0 <= i < |programs| && least == programs[i].callCount
  {
    least := programs[0].callCount;
    for i := 0 to |programs|
      invariant forall j :: 0 <= j < i ==> least <= programs[j].callCount
      invariant exists j :: 0 <= j < |programs| && least == programs[j].callCount
    {
      if programs[i].callCount < least {
        least := programs[i].callCount;
      }
    }
  }
}

=== FILE: scheduling.dfy ===
/** The read-only searches over the process table that the scheduler and the
    device arbiter use, and the release of the processes waiting to open a
    device. */
module Scheduling {
  import opened Codes
  import opened Pcbs

  /** The table position visited at step `s` of a scan that starts at `offset`. */
  function Visit(s: nat, offset: nat, n: nat): (k: nat)
    requires s < n && offset < n
    ensures k < n
  {
    (s + offset) % n
  }

  /** The first step at or after `step` of the cyclic scan whose PCB is not
      blocked. */
  function FirstReadyStep(ps: seq<Pcb>, offset: nat, step: nat): (r: Option<nat>)
    requires offset < |ps| && step <= |ps|
    ensures r.Some? ==> step <= r.value < |ps| && !ps[Visit(r.value, offset, |ps|)].IsBlocked()
    ensures r.Some? ==> forall t :: step <= t < r.value ==> ps[Visit(t, offset, |ps|)].IsBlocked()
    ensures r.None? ==> forall t :: step <= t < |ps| ==> ps[Visit(t, offset, |ps|)].IsBlocked()
    decreases |ps| - step
  {
    if step == |ps| then None
    else if !ps[Visit(step, offset, |ps|)].IsBlocked() then Some(step)
    else FirstReadyStep(ps, offset, step + 1)
  }

  /** Every position of the table is visited by some step of the scan. */
  lemma VisitCovers(k: nat, offset: nat, n: nat)
    requires k < n && offset < n
    ensures var s := if offset <= k then k - offset else k + n - offset;
            s < n && Visit(s, offset, n) == k
  {
  }

  /** The scheduler's choice: scanning the table cyclically from `offset`,
      the position of the first PCB that is not blocked, or None when every
      PCB is blocked. */
  function GetRandomProcess(ps: seq<Pcb>, offset: nat): (r: Option<nat>)
    requires offset < |ps|
    ensures r.Some? ==> r.value < |ps| && !ps[r.value].IsBlocked()
    ensures r.Some? ==> exists s :: 0 <= s < |ps| && r.value == Visit(s, offset, |ps|) &&
                          forall t :: 0 <= t < s ==> ps[Visit(t, offset, |ps|)].IsBlocked()
    ensures r.None? <==> forall k :: 0 <= k < |ps| ==> ps[k].IsBlocked()
  {
    match FirstReadyStep(ps, offset, 0)
    case None =>
      assert forall k :: 0 <= k < |ps| ==> ps[k].IsBlocked() by {
        forall k | 0 <= k < |ps| ensures ps[k].IsBlocked() {
          VisitCovers(k, offset, |ps|);
        }
      }
      None
    case Some(s) => Some(Visit(s, offset, |ps|))
  }

  /** The first PCB of the table blocked for (`dev`, `op`, `addr`). */
  function SelectBlockedProcessFrom(ps: seq<Pcb>, dev: nat, op: int, addr: int, from: nat): (r: Option<nat>)
    requires from <= |ps|
    ensures r.Some? ==> from <= r.value < |ps| && ps[r.value].IsBlockedForDevice(dev, op, addr)
    ensures r.Some? ==> forall i :: from <= i < r.value ==> !ps[i].IsBlockedForDevice(dev, op, addr)
    ensures r.None? <==> forall i :: from <= i < |ps| ==> !ps[i].IsBlockedForDevice(dev, op, addr)
    decreases |ps| - from
  {
    if from == |ps| then None
    else if ps[from].IsBlockedForDevice(dev, op, addr) then Some(from)
    else SelectBlockedProcessFrom(ps, dev, op, addr, from + 1)
  }

  /** The process to unblock for (`dev`, `op`, `addr`): the first in table
      order that waits for it, or None when none does. */
  function SelectBlockedProcess(ps: seq<Pcb>, dev: nat, op: int, addr: int): (r: Option<nat>)
    ensures r.Some? ==> r.value < |ps| && ps[r.value].IsBlockedForDevice(dev, op, addr)
    ensures r.Some? ==> forall i :: 0 <= i < r.value ==> !ps[i].IsBlockedForDevice(dev, op, addr)
    ensures r.None? <==> forall i :: 0 <= i < |ps| ==> !ps[i].IsBlockedForDevice(dev, op, addr)
  {
    SelectBlockedProcessFrom(ps, dev, op, addr, 0)
  }

  /** A PCB waiting to open device `dev`. */
  predicate WaitsToOpen(p: Pcb, dev: nat) {
    p.IsBlockedForDevice(dev, SyscallOpen, OpenWaitAddr)
  }

  /** The number of PCBs waiting to open device `dev`. */
  function CountOpenWaiters(ps: seq<Pcb>, dev: nat): (c: nat)
    ensures c <= |ps|
    ensures c == 0 <==> forall i :: 0 <= i < |ps| ==> !WaitsToOpen(ps[i], dev)
  {
    if ps == [] then 0
    else (if WaitsToOpen(ps[0], dev) then 1 else 0) + CountOpenWaiters(ps[1..], dev)
  }

  /** Unblocking one waiter lowers the count of waiters by one. */
  lemma {:induction false} UnblockOneWaiter(ps: seq<Pcb>, dev: nat, k: nat)
    requires k < |ps| && WaitsToOpen(ps[k], dev)
    ensures CountOpenWaiters(ps[k := ps[k].Unblock()], dev) == CountOpenWaiters(ps, dev) - 1
  {
    var qs := ps[k := ps[k].Unblock()];
    if k == 0 {
      assert qs[1..] == ps[1..];
    } else {
      assert qs[1..] == ps[1..][k - 1 := ps[k].Unblock()];
      UnblockOneWaiter(ps[1..], dev, k - 1);
    }
  }

  /** The table after a close of device `dev`: every process that waited to
      open it is ready; every other PCB is unchanged. */
  function ReleaseOpenWaiters(ps: seq<Pcb>, dev: nat): (r: seq<Pcb>)
    ensures SamePids(r, ps)
    ensures forall i :: 0 <= i < |r| ==> forall addr :: !r[i].IsBlockedForDevice(dev, SyscallOpen, addr)
    ensures forall i :: 0 <= i < |r| ==> !WaitsToOpen(ps[i], dev) ==> r[i] == ps[i]
    ensures forall i :: 0 <= i < |r| ==> WaitsToOpen(ps[i], dev) ==> !r[i].IsBlocked()
    ensures forall i :: 0 <= i < |r| ==>
      r[i].registers == ps[i].registers && r[i].stackArea == ps[i].stackArea
  {
    seq(|ps|, i requires 0 <= i < |ps| => if WaitsToOpen(ps[i], dev) then ps[i].Unblock() else ps[i])
  }
}

=== FILE: transitions.dfy ===
/** The kernel's operations as functions from one kernel state to the next.
    A `KState` gathers everything the kernel reads or changes: the CPU's
    register file and the running process's stack, RAM, the program catalog,
    the device registry, the process table, the running pid, the allocator's
    watermark, the pid counter, the calls issued to device drivers, and the
    windows handed out so far. Each operation of the kernel class that has a
    counterpart here (`Open` and `OpenStep`, `Exec` and `ExecStep`, ...) is
    proved to compute it; output and getpid state their new state directly.
    The properties of the kernel are proved about these functions. */
module Transitions {
  import opened Codes
  import opened Pcbs
  import opened Devices
  import opened Scheduling
  import opened Programs

  /** A call the kernel makes into a device driver. */
  datatype DeviceCall =
    | DeviceRead(device: nat, addr: int)
    | DeviceWrite(device: nat, addr: int, data: int)

  /** The RAM window [base, limit) handed to one loaded process. */
  datatype Window = Window(base: int, limit: int)

  /** The windows lie back to back from address 0 up to `top`, each non-empty. */
  ghost predicate Tiled(ws: seq<Window>, top: int) {
    (|ws| == 0 ==> top == 0) &&
    (|ws| > 0 ==> ws[0].base == 0 && ws[|ws| - 1].limit == top) &&
    (forall i :: 0 <= i < |ws| ==> ws[i].base < ws[i].limit) &&
    (forall i :: 0 <= i && i + 1 < |ws| ==> ws[i].limit == ws[i + 1].base)
  }

  lemma {:induction false} TiledApart(ws: seq<Window>, top: int, i: nat, j: nat)
    requires Tiled(ws, top) && i < j < |ws|
    ensures ws[i].limit <= ws[j].base
    decreases j - i
  {
    if i + 1 < j {
      TiledApart(ws, top, i, j - 1);
    }
  }

  /** The bump allocator never hands out overlapping windows: later windows
      start strictly higher, at or above the end of every earlier one, and all
      of them end at or below the watermark. */
  lemma WindowsDisjoint(ws: seq<Window>, top: int)
    requires Tiled(ws, top)
    ensures forall i, j :: 0 <= i < j < |ws| ==> ws[i].limit <= ws[j].base && ws[i].base < ws[j].base
    ensures forall i :: 0 <= i < |ws| ==> 0 <= ws[i].base && ws[i].limit <= top
  {
    forall i, j | 0 <= i < j < |ws|
      ensures ws[i].limit <= ws[j].base
    {
      TiledApart(ws, top, i, j);
    }
    forall i | 0 <= i < |ws|
      ensures 0 <= ws[i].base && ws[i].limit <= top
    {
      if 0 < i {
        TiledApart(ws, top, 0, i);
      }
      if i < |ws| - 1 {
        TiledApart(ws, top, i, |ws| - 1);
      }
    }
  }

  /** How many arguments each system call pops after its number. */
  function ArgCount(call: int): nat {
    if call == SyscallOutput || call == SyscallOpen || call == SyscallClose then 1
    else if call == SyscallRead then 2
    else if call == SyscallWrite then 3
    else 0
  }

  /** The stack after a core dump has popped up to three values. */
  function DumpedStack(stk: seq<int>): (r: seq<int>)
    ensures |r| == if |stk| < 3 then 0 else |stk| - 3
    ensures r <= stk
  {
    if |stk| < 3 then [] else stk[..|stk| - 3]
  }

  /** `ram` with `words` written from address `at` on. */
  function WriteWords(ram: seq<int>, at: int, words: seq<int>): (r: seq<int>)
    requires 0 <= at && at + |words| <= |ram|
    ensures |r| == |ram|
    ensures forall i :: 0 <= i < |words| ==> r[at + i] == words[i]
    ensures forall a :: 0 <= a < |ram| && !(at <= a < at + |words|) ==> r[a] == ram[a]
  {
    seq(|ram|, a requires 0 <= a < |ram| => if at <= a < at + |words| then words[a - at] else ram[a])
  }

  datatype KState = KState(
    regs: seq<int>,
    stack: seq<int>,
    ram: seq<int>,
    programs: seq<Program>,
    devices: seq<DeviceInfo>,
    processes: seq<Pcb>,
    currPid: int,
    nextLoadPos: int,
    nextProcessId: int,
    deviceCalls: seq<DeviceCall>,
    windows: seq<Window>)

  /** A state reached by an operation, and whether the simulation goes on. */
  datatype Step = Step(state: KState, outcome: Outcome)

  /** The kernel invariant. The windows tile RAM up to the watermark; pids
      increase along the table and stay below the counter; every PCB that
      is not running can be restored; no holder list repeats a pid; every
      program in the catalog fits the window exec gives it. */
  ghost predicate Inv(s: KState) {
    |s.regs| == NumReg &&
    0 <= s.nextLoadPos <= |s.ram| && Tiled(s.windows, s.nextLoadPos) &&
    FirstPid <= s.nextProcessId &&
    PidsAscending(s.processes) &&
    (forall i :: 0 <= i < |s.processes| ==> FirstPid <= s.processes[i].pid < s.nextProcessId) &&
    SnapshotsReady(s.processes, s.currPid) &&
    HoldersDistinct(s.devices) &&
    (forall i :: 0 <= i < |s.programs| ==> FitsWindow(s.programs[i]))
  }

  /** The state the kernel starts in: a zeroed machine with `ramSize` words of
      RAM, nothing registered, and the placeholder process running. */
  function Initial(ramSize: nat): (s: KState)
    ensures Inv(s) && |s.ram| == ramSize && s.processes == [] && s.currPid == PlaceholderPid
    ensures s.devices == [] && s.programs == [] && s.nextLoadPos == 0 && s.nextProcessId == FirstPid
    ensures s.windows == [] && s.stack == [] && s.deviceCalls == [] && |s.regs| == NumReg
    ensures OnlyOpenBlocks(s)
  {
    KState(seq(NumReg, _ => 0), [], seq(ramSize, _ => 0), [], [], [], PlaceholderPid, 0, FirstPid, [], [])
  }

  /** No two PCBs of a well-formed table share a pid. */
  lemma PidsUnique(s: KState)
    requires Inv(s)
    ensures forall i, j :: 0 <= i < |s.processes| && 0 <= j < |s.processes| && i != j ==>
      s.processes[i].pid != s.processes[j].pid
  {
  }

  /** The loader's windows never overlap and all lie inside RAM. */
  lemma LoadedWindowsDisjoint(s: KState)
    requires Inv(s)
    ensures forall i, j :: 0 <= i < j < |s.windows| ==> s.windows[i].limit <= s.windows[j].base
    ensures forall i :: 0 <= i < |s.windows| ==> 0 <= s.windows[i].base < s.windows[i].limit <= |s.ram|
  {
    WindowsDisjoint(s.windows, s.nextLoadPos);
  }

  // ------------------------------------------------------------------
  // Context switch

  /** The running process switched out: its PCB holds the register file and
      the stack. */
  function SaveRunning(s: KState): (r: KState)
    requires Inv(s)
    ensures r == s.(processes := SaveSnapshot(s.processes, s.currPid, s.regs, s.stack))
    ensures Inv(r) && forall running :: SnapshotsReady(r.processes, running)
  {
    SaveSnapshotReady(s.processes, s.currPid, s.regs, s.stack);
    s.(processes := SaveSnapshot(s.processes, s.currPid, s.regs, s.stack))
  }

  /** The scheduler with the random number `draw`. */
  function ScheduleStep(s: KState, draw: nat): (r: Step)
    requires Inv(s)
    ensures Inv(r.state)
    ensures r.outcome == Stopped(NoMoreProcesses) <==> s.processes == []
    ensures r.outcome == Stopped(NoReadyProcess) <==>
      s.processes != [] && forall i :: 0 <= i < |s.processes| ==> s.processes[i].IsBlocked()
    ensures r.outcome.Stopped? ==>
      r.state == s && (r.outcome.reason == NoMoreProcesses || r.outcome.reason == NoReadyProcess)
    ensures r.outcome.Running? ==>
      var pick := GetRandomProcess(s.processes, draw % |s.processes|);
      pick.Some? && r.state.currPid == s.processes[pick.value].pid
    ensures r.outcome.Running? ==>
      r.state.processes == SaveSnapshot(s.processes, s.currPid, s.regs, s.stack) &&
      exists k :: 0 <= k < |r.state.processes| && r.state.processes[k].pid == r.state.currPid &&
        !r.state.processes[k].IsBlocked() &&
        r.state.processes[k].registers == Some(r.state.regs) && r.state.processes[k].stackArea == r.state.stack
    ensures r.state == s.(processes := r.state.processes, currPid := r.state.currPid,
                          regs := r.state.regs, stack := r.state.stack)
  {
    if |s.processes| == 0 then Step(s, Stopped(NoMoreProcesses))
    else
      match GetRandomProcess(s.processes, draw % |s.processes|)
      case None => Step(s, Stopped(NoReadyProcess))
      case Some(k) =>
        var t := SaveRunning(s);
        var p := t.processes[k];
        Step(t.(currPid := p.pid, regs := p.registers.value, stack := p.stackArea), Running)
  }

  /** The running process leaves the table and the scheduler picks another. */
  function RemoveCurrentStep(s: KState, draw: nat): (r: Step)
    requires Inv(s)
    ensures Inv(r.state)
    ensures r.state.processes == RemovePid(s.processes, s.currPid)
    ensures forall i :: 0 <= i < |r.state.processes| ==> r.state.processes[i].pid != s.currPid
    ensures forall i :: 0 <= i < |s.processes| && s.processes[i].pid != s.currPid ==>
      s.processes[i] in r.state.processes
    ensures r.outcome == Stopped(NoMoreProcesses) <==> r.state.processes == []
    ensures r.outcome == Stopped(NoReadyProcess) <==>
      r.state.processes != [] && forall i :: 0 <= i < |r.state.processes| ==> r.state.processes[i].IsBlocked()
    ensures r.outcome.Stopped? ==> r.state == s.(processes := r.state.processes)
    ensures r.outcome.Running? ==>
      exists k :: 0 <= k < |r.state.processes| && r.state.processes[k].pid == r.state.currPid &&
        !r.state.processes[k].IsBlocked() &&
        r.state.processes[k].registers == Some(r.state.regs) && r.state.processes[k].stackArea == r.state.stack
    ensures r.state == s.(processes := r.state.processes, currPid := r.state.currPid,
                          regs := r.state.regs, stack := r.state.stack)
  {
    RemovePidReady(s.processes, s.currPid, s.nextProcessId);
    ScheduleStep(s.(processes := RemovePid(s.processes, s.currPid)), draw)
  }

  // ------------------------------------------------------------------
  // Loader

  /** Loading `prog` into the next `allocSize` words of RAM as a new process. */
  function CreateProcessStep(s: KState, prog: Program, allocSize: int): (r: Step)
    requires Inv(s) && HeaderWords + |prog.words| <= allocSize
    ensures Inv(r.state)
    ensures r.outcome.Stopped? <==> s.nextLoadPos + allocSize >= |s.ram|
    ensures r.outcome.Stopped? ==> r == Step(s, Stopped(OutOfRam))
    ensures r.outcome.Running? ==> 0 <= s.nextLoadPos && s.nextLoadPos + allocSize < |s.ram|
    ensures r.outcome.Running? ==>
      var t, base, n := r.state, s.nextLoadPos, |prog.words|;
      t.regs[Base] == base && t.regs[Lim] == base + allocSize &&
      t.regs[Pc] == HeaderWords && t.regs[Sp] == allocSize &&
      t.regs[..NumGenReg] == s.regs[..NumGenReg] && t.stack == [] &&
      |t.ram| == |s.ram| &&
      (forall i :: 0 <= i < n ==> t.ram[base + HeaderWords + i] == prog.words[i]) &&
      (forall a :: 0 <= a < |s.ram| && !(base + HeaderWords <= a < base + HeaderWords + n) ==>
        t.ram[a] == s.ram[a]) &&
      t.nextLoadPos == base + allocSize &&
      t.windows == s.windows + [Window(base, base + allocSize)] &&
      t.processes == SaveSnapshot(s.processes, s.currPid, s.regs, s.stack) + [NewPcb(s.nextProcessId)] &&
      t.currPid == s.nextProcessId && t.nextProcessId == s.nextProcessId + 1 &&
      t.programs == s.programs && t.devices == s.devices && t.deviceCalls == s.deviceCalls
  {
    if s.nextLoadPos + allocSize >= |s.ram| then Step(s, Stopped(OutOfRam))
    else Step(Install(SaveRunning(s), prog, allocSize), Running)
  }

  /** The part of a load after the running process is saved: the registers
      point at the new window, the program's words follow the header words,
      and a fresh PCB becomes the running process. */
  function Install(t: KState, prog: Program, allocSize: int): (r: KState)
    requires Inv(t) && forall running :: SnapshotsReady(t.processes, running)
    requires HeaderWords + |prog.words| <= allocSize && t.nextLoadPos + allocSize < |t.ram|
    ensures Inv(r)
  {
    var base := t.nextLoadPos;
    assert SnapshotsReady(t.processes, t.nextProcessId);
    var regs := t.regs[Base := base][Lim := base + allocSize][Pc := HeaderWords][Sp := allocSize];
    t.(regs := regs, stack := [], ram := WriteWords(t.ram, base + HeaderWords, prog.words),
       nextLoadPos := base + allocSize,
       processes := t.processes + [NewPcb(t.nextProcessId)],
       currPid := t.nextProcessId, nextProcessId := t.nextProcessId + 1,
       windows := t.windows + [Window(base, base + allocSize)])
  }

  /** Exec with the random choice `pick`: loads the chosen program with its
      window size, and moves the PC back one instruction so that the CPU's
      increment after the trap lands on the first instruction. */
  function ExecStep(s: KState, pick: nat): (r: Step)
    requires Inv(s) && (|s.programs| > 0 ==> pick < |s.programs|)
    ensures Inv(r.state)
    ensures |s.programs| == 0 ==> r == Step(s, Stopped(NoPrograms))
    ensures |s.programs| > 0 ==>
      var prog := s.programs[pick];
      var c := CreateProcessStep(s, prog, AllocSize(prog));
      r.outcome == c.outcome &&
      (r.outcome.Stopped? ==> r.state == s) &&
      (r.outcome.Running? ==>
        r.state.regs[Pc] + InstrSize == HeaderWords &&
        r.state == c.state.(regs := c.state.regs[Pc := HeaderWords - InstrSize]))
    ensures r.state.programs == s.programs
  {
    if |s.programs| == 0 then Step(s, Stopped(NoPrograms))
    else
      var prog := s.programs[pick];
      var c := CreateProcessStep(s, prog, AllocSize(prog));
      if c.outcome.Stopped? then c
      else Step(c.state.(regs := c.state.regs[Pc := c.state.regs[Pc] - InstrSize]), Running)
  }

  /** The loader's out-of-RAM test as the kernel evaluates it: the watermark
      plus the window size is a 32-bit int, so a large enough sum wraps
      below zero and passes the test. `CreateProcessStep` uses the test on
      unbounded integers instead. */
  predicate NoRoomAsWritten(nextLoadPos: int, allocSize: int, ramSize: int) {
    Int32(nextLoadPos + allocSize) >= ramSize
  }

  /** With the watermark at 1000, 10000 words of RAM and a window of
      2147483000 words, the 32-bit test lets the load go ahead although the
      window ends far beyond RAM; the unbounded test stops it. */
  lemma NoRoomTestWraps()
    ensures !NoRoomAsWritten(1000, 2147483000, 10000)
    ensures 1000 + 2147483000 >= 10000
  {
    assert Int32(1000 + 2147483000) == -2147483296;
  }

  // ------------------------------------------------------------------
  // Device system calls. Each is entered with its arguments on the stack
  // (the call number already popped) and leaves its result code on top.

  /** Open of the device whose id is on top of the stack. */
  function OpenStep(s: KState): (r: KState)
    requires Inv(s) && |s.stack| > 0
    ensures Inv(r)
    ensures |r.stack| == |s.stack| && Below(r.stack) == Below(s.stack)
    ensures r == s.(stack := r.stack, devices := r.devices, processes := r.processes)
    ensures var f := DeviceFound(s.devices, Top(s.stack));
      f.None? ==> Top(r.stack) == DeviceNotFound && r.devices == s.devices && r.processes == s.processes
    ensures var f := DeviceFound(s.devices, Top(s.stack));
      f.Some? && s.devices[f.value].ContainsProcess(s.currPid) ==>
        Top(r.stack) == AlreadyOpened && r.devices == s.devices && r.processes == s.processes
    ensures var f := DeviceFound(s.devices, Top(s.stack));
      f.Some? && !s.devices[f.value].ContainsProcess(s.currPid) ==>
        var d, info := f.value, s.devices[f.value];
        var waits := !info.device.shareable && !info.Unused();
        Top(r.stack) == Success &&
        r.devices == s.devices[d := info.AddProcess(s.currPid)] &&
        r.devices[d].holders == info.holders + [s.currPid] &&
        SamePids(r.processes, s.processes) &&
        forall i :: 0 <= i < |s.processes| ==>
          if s.processes[i].pid == s.currPid && waits
          then WaitsToOpen(r.processes[i], d) && r.processes[i].registers == s.processes[i].registers &&
               r.processes[i].stackArea == s.processes[i].stackArea
          else r.processes[i] == s.processes[i]
  {
    var id, rest := Top(s.stack), Below(s.stack);
    match DeviceFound(s.devices, id)
    case None => s.(stack := rest + [DeviceNotFound])
    case Some(d) =>
      var info := s.devices[d];
      if info.ContainsProcess(s.currPid) then s.(stack := rest + [AlreadyOpened])
      else
        var ps := if !info.device.shareable && !info.Unused()
                  then BlockPid(s.processes, s.currPid, d, SyscallOpen, OpenWaitAddr)
                  else s.processes;
        s.(devices := s.devices[d := info.AddProcess(s.currPid)], processes := ps,
           stack := rest + [Success])
  }

  /** Close of the device whose id is on top of the stack. */
  function CloseStep(s: KState): (r: KState)
    requires Inv(s) && |s.stack| > 0
    ensures Inv(r)
    ensures |r.stack| == |s.stack| && Below(r.stack) == Below(s.stack)
    ensures r == s.(stack := r.stack, devices := r.devices, processes := r.processes)
    ensures var f := DeviceFound(s.devices, Top(s.stack));
      f.None? ==> Top(r.stack) == DeviceNotFound && r.devices == s.devices && r.processes == s.processes
    ensures var f := DeviceFound(s.devices, Top(s.stack));
      f.Some? && !s.devices[f.value].ContainsProcess(s.currPid) ==>
        Top(r.stack) == NotOpened && r.devices == s.devices && r.processes == s.processes
    ensures var f := DeviceFound(s.devices, Top(s.stack));
      f.Some? && s.devices[f.value].ContainsProcess(s.currPid) ==>
        var d, info := f.value, s.devices[f.value];
        Top(r.stack) == Success &&
        r.devices == s.devices[d := info.RemoveProcess(s.currPid)] &&
        (forall q :: r.devices[d].ContainsProcess(q) <==> info.ContainsProcess(q) && q != s.currPid) &&
        |r.devices[d].holders| == |info.holders| - 1 &&
        SamePids(r.processes, s.processes) &&
        (forall i :: 0 <= i < |r.processes| ==> !WaitsToOpen(r.processes[i], d)) &&
        (forall i :: 0 <= i < |s.processes| ==> WaitsToOpen(s.processes[i], d) ==> !r.processes[i].IsBlocked()) &&
        (forall i :: 0 <= i < |s.processes| ==> !WaitsToOpen(s.processes[i], d) ==> r.processes[i] == s.processes[i]) &&
        (forall i :: 0 <= i < |s.processes| ==>
          r.processes[i].pid == s.processes[i].pid && r.processes[i].registers == s.processes[i].registers &&
          r.processes[i].stackArea == s.processes[i].stackArea)
  {
    var id, rest := Top(s.stack), Below(s.stack);
    match DeviceFound(s.devices, id)
    case None => s.(stack := rest + [DeviceNotFound])
    case Some(d) =>
      var info := s.devices[d];
      if !info.ContainsProcess(s.currPid) then s.(stack := rest + [NotOpened])
      else
        RemoveFirstDistinct(info.holders, s.currPid);
        s.(devices := s.devices[d := info.RemoveProcess(s.currPid)],
           processes := ReleaseOpenWaiters(s.processes, d),
           stack := rest + [Success])
  }

  /** Read with the device id and the address on the stack (address on top).
      `value` is what the driver returns. */
  function ReadStep(s: KState, value: int): (r: KState)
    requires |s.stack| >= 2
    ensures r == s.(stack := r.stack, deviceCalls := r.deviceCalls)
    ensures var n := |s.stack|;
      var rest, id, addr := s.stack[..n - 2], s.stack[n - 2], s.stack[n - 1];
      var f := DeviceFound(s.devices, id);
      (f.None? ==> r.stack == rest + [DeviceNotFound] && r.deviceCalls == s.deviceCalls) &&
      (f.Some? && !s.devices[f.value].ContainsProcess(s.currPid) ==>
        r.stack == rest + [NotOpened] && r.deviceCalls == s.deviceCalls) &&
      (f.Some? && s.devices[f.value].ContainsProcess(s.currPid) ==>
        r.deviceCalls == s.deviceCalls + [DeviceRead(f.value, addr)] &&
        r.stack == rest + (if s.devices[f.value].device.readable then [] else [WriteOnly]) + [value, Success])
  {
    var n := |s.stack|;
    var rest, id, addr := s.stack[..n - 2], s.stack[n - 2], s.stack[n - 1];
    match DeviceFound(s.devices, id)
    case None => s.(stack := rest + [DeviceNotFound])
    case Some(d) =>
      var info := s.devices[d];
      if !info.ContainsProcess(s.currPid) then s.(stack := rest + [NotOpened])
      else
        var flagged := if !info.device.readable then rest + [WriteOnly] else rest;
        s.(deviceCalls := s.deviceCalls + [DeviceRead(d, addr)], stack := flagged + [value] + [Success])
  }

  /** Write with the device id, the address and the data on the stack (data
      on top). */
  function WriteStep(s: KState): (r: KState)
    requires |s.stack| >= 3
    ensures r == s.(stack := r.stack, deviceCalls := r.deviceCalls)
    ensures var n := |s.stack|;
      var rest, id, addr, data := s.stack[..n - 3], s.stack[n - 3], s.stack[n - 2], s.stack[n - 1];
      var f := DeviceFound(s.devices, id);
      (f.None? ==> r.stack == rest + [DeviceNotFound] && r.deviceCalls == s.deviceCalls) &&
      (f.Some? && !s.devices[f.value].ContainsProcess(s.currPid) ==>
        r.stack == rest + [NotOpened] && r.deviceCalls == s.deviceCalls) &&
      (f.Some? && s.devices[f.value].ContainsProcess(s.currPid) && !s.devices[f.value].device.writeable ==>
        r.stack == rest + [ReadOnly] && r.deviceCalls == s.deviceCalls) &&
      (f.Some? && s.devices[f.value].ContainsProcess(s.currPid) && s.devices[f.value].device.writeable ==>
        r.stack == rest + [Success] && r.deviceCalls == s.deviceCalls + [DeviceWrite(f.value, addr, data)])
  {
    var n := |s.stack|;
    var rest, id, addr, data := s.stack[..n - 3], s.stack[n - 3], s.stack[n - 2], s.stack[n - 1];
    match DeviceFound(s.devices, id)
    case None => s.(stack := rest + [DeviceNotFound])
    case Some(d) =>
      var info := s.devices[d];
      if !info.ContainsProcess(s.currPid) then s.(stack := rest + [NotOpened])
      else if !info.device.writeable then s.(stack := rest + [ReadOnly])
      else s.(deviceCalls := s.deviceCalls + [DeviceWrite(d, addr, data)], stack := rest + [Success])
  }

  // ------------------------------------------------------------------
  // The trap handler

  /** Core dump: pops what is left of the top three stack values, then exits. */
  function CoreDumpStep(s: KState, draw: nat): (r: Step)
    requires Inv(s)
    ensures Inv(r.state)
    ensures r == RemoveCurrentStep(s.(stack := DumpedStack(s.stack)), draw)
    ensures forall i :: 0 <= i < |r.state.processes| ==> r.state.processes[i].pid != s.currPid
  {
    RemoveCurrentStep(s.(stack := DumpedStack(s.stack)), draw)
  }

  /** The system call whose number is on top of the stack. `draw` is the
      scheduler's random number, `pick` exec's random choice and `value`
      what a device read returns. */
  function SystemCallStep(s: KState, draw: nat, pick: nat, value: int): (r: Step)
    requires Inv(s) && |s.stack| > 0 && ArgCount(Top(s.stack)) < |s.stack|
    requires |s.programs| > 0 ==> pick < |s.programs|
    ensures Inv(r.state)
    ensures r.state.programs == s.programs
    ensures s.nextProcessId <= r.state.nextProcessId <= s.nextProcessId + 1
    ensures s.nextLoadPos <= r.state.nextLoadPos && s.windows <= r.state.windows
    ensures r.outcome.Stopped? ==>
      var call := Top(s.stack);
      call == SyscallExit || call == SyscallCoreDump || call == SyscallExec || call == SyscallYield
    ensures var call := Top(s.stack);
      call < SyscallExit || call > SyscallCoreDump ==> r == Step(s.(stack := Below(s.stack)), Running)
    ensures var call := Top(s.stack);
      call == SyscallGetPid ==> r == Step(s.(stack := Below(s.stack) + [s.currPid]), Running)
    ensures var call := Top(s.stack);
      call == SyscallOutput ==> r == Step(s.(stack := Below(Below(s.stack))), Running)
    ensures var call, t := Top(s.stack), s.(stack := Below(s.stack));
      (call == SyscallExit ==> r == RemoveCurrentStep(t, draw)) &&
      (call == SyscallCoreDump ==> r == CoreDumpStep(t, draw)) &&
      (call == SyscallYield ==> r == ScheduleStep(t, draw)) &&
      (call == SyscallExec ==> r == ExecStep(t, pick))
    ensures var call, t := Top(s.stack), s.(stack := Below(s.stack));
      (call == SyscallOpen ==> r == Step(OpenStep(t), Running)) &&
      (call == SyscallClose ==> r == Step(CloseStep(t), Running)) &&
      (call == SyscallRead ==> r == Step(ReadStep(t, value), Running)) &&
      (call == SyscallWrite ==> r == Step(WriteStep(t), Running))
  {
    var call, t := Top(s.stack), s.(stack := Below(s.stack));
    if call == SyscallExit then RemoveCurrentStep(t, draw)
    else if call == SyscallOutput then Step(t.(stack := Below(t.stack)), Running)
    else if call == SyscallGetPid then Step(t.(stack := t.stack + [t.currPid]), Running)
    else if call == SyscallCoreDump then CoreDumpStep(t, draw)
    else if call == SyscallOpen then Step(OpenStep(t), Running)
    else if call == SyscallClose then Step(CloseStep(t), Running)
    else if call == SyscallRead then Step(ReadStep(t, value), Running)
    else if call == SyscallWrite then Step(WriteStep(t), Running)
    else if call == SyscallExec then ExecStep(t, pick)
    else if call == SyscallYield then ScheduleStep(t, draw)
    else Step(t, Running)
  }

  // ------------------------------------------------------------------
  // Properties relating several operations

  /** Opening a device and then closing it again leaves its holder list as it
      was, and the close reports success. */
  lemma {:induction false} OpenThenClose(s: KState)
    requires Inv(s) && |s.stack| > 0
    requires DeviceFound(s.devices, Top(s.stack)).Some?
    requires !s.devices[DeviceFound(s.devices, Top(s.stack)).value].ContainsProcess(s.currPid)
    ensures var t := OpenStep(s);
      var c := CloseStep(t.(stack := Below(t.stack) + [Top(s.stack)]));
      c.devices == s.devices && Top(c.stack) == Success
  {
    var d := DeviceFound(s.devices, Top(s.stack)).value;
    var t := OpenStep(s);
    var u := t.(stack := Below(t.stack) + [Top(s.stack)]);
    AddThenRemove(s.devices[d].holders, s.currPid);
    assert t.devices[d].RemoveProcess(s.currPid) == s.devices[d];
    assert t.devices[d := t.devices[d].RemoveProcess(s.currPid)] == s.devices;
  }

  /** If `p` is blocked, it waits to open a registered device, and it is
      among that device's holders. */
  ghost predicate WaitsAsHolder(p: Pcb, devices: seq<DeviceInfo>) {
    p.IsBlocked() ==>
      p.blockedOp == SyscallOpen && p.blockedAddr == OpenWaitAddr &&
      p.blockedDevice.value < |devices| && devices[p.blockedDevice.value].ContainsProcess(p.pid)
  }

  /** Only open blocks a process, and open adds the process it blocks to the
      device's holder list. */
  ghost predicate OnlyOpenBlocks(s: KState) {
    forall i :: 0 <= i < |s.processes| ==> WaitsAsHolder(s.processes[i], s.devices)
  }

  /** Registering a device appends to the registry and keeps every
      blocked process's device where it was. */
  lemma RegisterKeepsOnlyOpenBlocks(s: KState, info: DeviceInfo)
    requires OnlyOpenBlocks(s)
    ensures OnlyOpenBlocks(s.(devices := s.devices + [info]))
  {
    var r := s.(devices := s.devices + [info]);
    forall i | 0 <= i < |r.processes|
      ensures WaitsAsHolder(r.processes[i], r.devices)
    {
      assert WaitsAsHolder(s.processes[i], s.devices);
    }
  }

  lemma ScheduleKeepsOnlyOpenBlocks(s: KState, draw: nat)
    requires Inv(s) && OnlyOpenBlocks(s)
    ensures OnlyOpenBlocks(ScheduleStep(s, draw).state)
  {
    var r := ScheduleStep(s, draw).state;
    forall i | 0 <= i < |r.processes|
      ensures WaitsAsHolder(r.processes[i], r.devices)
    {
      assert WaitsAsHolder(s.processes[i], s.devices);
    }
  }

  lemma RemoveCurrentKeepsOnlyOpenBlocks(s: KState, draw: nat)
    requires Inv(s) && OnlyOpenBlocks(s)
    ensures OnlyOpenBlocks(RemoveCurrentStep(s, draw).state)
  {
    RemovePidReady(s.processes, s.currPid, s.nextProcessId);
    var t := s.(processes := RemovePid(s.processes, s.currPid));
    forall i | 0 <= i < |t.processes|
      ensures WaitsAsHolder(t.processes[i], t.devices)
    {
      assert t.processes[i] in s.processes;
    }
    ScheduleKeepsOnlyOpenBlocks(t, draw);
  }

  lemma CreateProcessKeepsOnlyOpenBlocks(s: KState, prog: Program, allocSize: int)
    requires Inv(s) && OnlyOpenBlocks(s) && HeaderWords + |prog.words| <= allocSize
    ensures OnlyOpenBlocks(CreateProcessStep(s, prog, allocSize).state)
  {
    var r := CreateProcessStep(s, prog, allocSize);
    if r.outcome.Running? {
      forall i | 0 <= i < |r.state.processes|
        ensures WaitsAsHolder(r.state.processes[i], r.state.devices)
      {
        if i < |s.processes| {
          assert WaitsAsHolder(s.processes[i], s.devices);
        }
      }
    }
  }

  lemma ExecKeepsOnlyOpenBlocks(t: KState, pick: nat)
    requires Inv(t) && OnlyOpenBlocks(t) && (|t.programs| > 0 ==> pick < |t.programs|)
    ensures OnlyOpenBlocks(ExecStep(t, pick).state)
  {
    if |t.programs| > 0 {
      var prog := t.programs[pick];
      CreateProcessKeepsOnlyOpenBlocks(t, prog, AllocSize(prog));
      var c := CreateProcessStep(t, prog, AllocSize(prog));
      assert ExecStep(t, pick).state.processes == c.state.processes;
      assert ExecStep(t, pick).state.devices == c.state.devices;
    }
  }

  lemma OpenKeepsOnlyOpenBlocks(t: KState)
    requires Inv(t) && OnlyOpenBlocks(t) && |t.stack| > 0
    ensures OnlyOpenBlocks(OpenStep(t))
  {
    var r := OpenStep(t);
    match DeviceFound(t.devices, Top(t.stack))
    case None =>
    case Some(d) =>
      forall i | 0 <= i < |r.processes|
        ensures WaitsAsHolder(r.processes[i], r.devices)
      {
        assert WaitsAsHolder(t.processes[i], t.devices);
        if r.processes[i] != t.processes[i] {
          assert r.processes[i].IsBlockedForDevice(d, SyscallOpen, OpenWaitAddr);
        }
      }
  }

  lemma CloseKeepsOnlyOpenBlocks(t: KState)
    requires Inv(t) && OnlyOpenBlocks(t) && |t.stack| > 0
    ensures OnlyOpenBlocks(CloseStep(t))
  {
    var r := CloseStep(t);
    match DeviceFound(t.devices, Top(t.stack))
    case None =>
    case Some(d) =>
      if t.devices[d].ContainsProcess(t.currPid) {
        forall i | 0 <= i < |r.processes|
          ensures WaitsAsHolder(r.processes[i], r.devices)
        {
          assert WaitsAsHolder(t.processes[i], t.devices);
          if WaitsToOpen(t.processes[i], d) {
            assert !r.processes[i].IsBlocked();
          } else {
            assert r.processes[i] == t.processes[i];
          }
        }
      }
  }

  /** No system call lets a process block other than on an open of a device
      it then holds. */
  lemma SystemCallKeepsOnlyOpenBlocks(s: KState, draw: nat, pick: nat, value: int)
    requires Inv(s) && |s.stack| > 0 && ArgCount(Top(s.stack)) < |s.stack|
    requires |s.programs| > 0 ==> pick < |s.programs|
    requires OnlyOpenBlocks(s)
    ensures OnlyOpenBlocks(SystemCallStep(s, draw, pick, value).state)
  {
    var call, t := Top(s.stack), s.(stack := Below(s.stack));
    assert OnlyOpenBlocks(t);
    if call == SyscallExit {
      RemoveCurrentKeepsOnlyOpenBlocks(t, draw);
    } else if call == SyscallCoreDump {
      RemoveCurrentKeepsOnlyOpenBlocks(t.(stack := DumpedStack(t.stack)), draw);
    } else if call == SyscallYield {
      ScheduleKeepsOnlyOpenBlocks(t, draw);
    } else if call == SyscallExec {
      ExecKeepsOnlyOpenBlocks(t, pick);
    } else if call == SyscallOpen {
      OpenKeepsOnlyOpenBlocks(t);
    } else if call == SyscallClose {
      CloseKeepsOnlyOpenBlocks(t);
    }
  }

  /** A close releases every process that waited to open the device, yet each
      of them still holds the device: when it runs again and retries the open,
      the open finds it among the holders and refuses with AlreadyOpened. */
  lemma CloseReleasesHolders(s: KState)
    requires Inv(s) && OnlyOpenBlocks(s) && |s.stack| > 0
    requires DeviceFound(s.devices, Top(s.stack)).Some?
    requires s.devices[DeviceFound(s.devices, Top(s.stack)).value].ContainsProcess(s.currPid)
    ensures var d, r := DeviceFound(s.devices, Top(s.stack)).value, CloseStep(s);
      forall i :: 0 <= i < |s.processes| && WaitsToOpen(s.processes[i], d) && s.processes[i].pid != s.currPid ==>
        !r.processes[i].IsBlocked() && r.devices[d].ContainsProcess(r.processes[i].pid)
  {
  }
}
